=== FILE: README.md ===
# kindle_to_json — a verified functional model

`kindle_to_json.py` turns the words a Kindle recorded in its vocabulary store
(`vocab.db`), or a plain CSV list of words, into `kindle_data.json`: one group
per book, each word enriched from the Jisho dictionary with a definition, a
reading, its parts of speech and a sample sentence.

This project models the logic of that script as pure Dafny functions over
immutable datatypes and proves what the script promises about its output.

| module (file) | models |
|---|---|
| `Wrappers` (wrappers.dfy) | `Option` for Python `None` / a missing JSON key, `Result` for a run that raises |
| `Text` (text.dfy) | `', '.join`, `str.split(':')`, `str.strip`/`lstrip`/`rstrip`, SQLite's `<` on TEXT |
| `Furigana` (furigana.dfy) | the reading remover `re.sub("[\(\[].*?[\)\]]", "", sample)` |
| `Records` (records.dfy) | the word record, the book group and the output document |
| `Enricher` (enricher.dfy) | `create_json_from_word`, with both service replies as inputs |
| `VocabDb` (vocab_db.dfy) | `create_json_from_db`: the per-book query, the key split, the groups |
| `WordList` (word_list.dfy) | `create_json_from_csv`: cell normalisation, flattening, the single group |
| `Pipeline` (pipeline.dfy) | the mode test `db.endswith('db')` and the dispatch |

The dictionary reply is a datatype: a failed response, a body without
`data`, or a list of entries; an entry has optional `japanese` variants (each
with an optional `reading`) and optional `senses` (each with optional
`english_definitions` and `parts_of_speech`). The sentence service's reply is
either nothing or at least one sentence. In the two pipelines the services
are functions from the word to its reply.

Where the script's comments and its code disagree, the model follows the
code:

- The comment at kindle_to_json.py:144 says the query keeps the lookup with
  the shortest context. The query at kindle_to_json.py:145-153 keeps a row
  when no row of LOOKUPS with the same word key has a strictly greater usage
  under `<`, which is the lexicographically greatest usage
  (`VocabDb.LongerUsageKeptExample`). The subquery at
  kindle_to_json.py:149-151 does not filter by book, so a greater usage in
  another book removes the word from this book
  (`VocabDb.OtherBookSuppressesExample`).
- The comment at kindle_to_json.py:82 says everything in parentheses is
  removed. The pattern at kindle_to_json.py:84 also removes square brackets,
  lets either opener pair with either closer, stops `.` at a line break, and
  is lazy, so it does not nest: `((a)b)` becomes `b)`
  (`Furigana.NestedExample`).
- The example record at kindle_to_json.py:38-44 shows a `sample` taken from a
  usage. Without a dictionary result, the caller's sample is stored as given
  (kindle_to_json.py:58, 96). The word-list mode passes none
  (kindle_to_json.py:194, default at :46), so there a word without a
  dictionary result gets a `sample` of JSON `null` (`Records.WordRecord.sample`
  is an `Option`); a word with a result gets `''` or the stripped sentence
  from the sentence service.
- The usage message at kindle_to_json.py:204 names `vocab.db`. The test at
  kindle_to_json.py:209 is `endswith('db')`, so every path ending in `db`
  (also `mydb`) selects the store mode (`Pipeline.ModeOf`).

## Model

| member | source | states |
|---|---|---|
| Enricher.IsSkippedWord | kindle_to_json.py:47-48 | a refused word is empty or one white-space character |
| Enricher.HasResults | kindle_to_json.py:50-58 | the dictionary reply is truthy exactly when the request succeeded and its `data` list is present and non-empty |
| Enricher.FalsySamples | kindle_to_json.py:75 | a caller sample is falsy (`IsTruthy` fails) exactly when it is `None` or `''` |
| Enricher.SentenceServiceCondition | kindle_to_json.py:58-78 | `AsksSentenceService`: the sentence service is asked exactly for a word that is not refused, with a truthy dictionary reply and a falsy caller sample; such a word is never empty |
| Enricher.Enrich | kindle_to_json.py:46-99 | no record exactly for `''`, `'\n'`, `'\r'`, `'\t'`; otherwise `word` is the input unchanged; without results the two sentinels, an empty part of speech and the caller's sample as given; with results definition, reading and part of speech are those of the first entry only and a sample is always present; a non-empty caller sample is kept |
| Enricher.LeadingGlosses | kindle_to_json.py:68-70 | the collecting loop yields exactly the first min(limit, n) glosses, in order |
| Enricher.DefinitionOf | kindle_to_json.py:63-72 | no sense or no gloss gives `NO DEFINITION FOUND`; one gloss gives it alone; two or more give the first two joined by `, ` |
| Enricher.DefinitionAtMostTwoGlosses | kindle_to_json.py:66-72 | the definition is the sentinel or the join of a one- or two-gloss prefix of the first sense's glosses |
| Enricher.ReadingOf | kindle_to_json.py:60-62 | the first variant's reading; `NO READING FOUND` when there is no variant or it has no reading |
| Enricher.PartOfSpeechOf | kindle_to_json.py:63-74 | `''` (not a sentinel) without a sense or tags; otherwise every tag of the first sense at its place, in order, with `, ` between neighbours and nothing else |
| Enricher.ServiceSample | kindle_to_json.py:78-87 | `''` when the service gives nothing; otherwise the first sentence with characters deleted, never longer |
| Enricher.SentenceServiceOnlyWhenAsked | kindle_to_json.py:58-78 | unless there are results and no non-empty caller sample, the sentence service's reply cannot change the record |
| Enricher.SentenceServiceUsedWhenAsked | kindle_to_json.py:75-87 | when asked, the sample is the stripped first sentence, or `''` when the service gives nothing |
| Furigana.FindCloser | kindle_to_json.py:84 | the lazy match ends at the first closer before any line break, and there is none exactly when every closer follows a line break |
| Furigana.StripAnnotations | kindle_to_json.py:84 | the result is never longer, and text without `(` or `[` is returned unchanged |
| Furigana.StripDeletesMatch | kindle_to_json.py:82-84 | an opener, a same-line run without closers and a closer are deleted together, reading included, and stripping resumes after the closer |
| Furigana.StripKeepsUnmatched | kindle_to_json.py:84 | a first character that is not an opener, or an opener with no closer on its line, is copied and stripping resumes after it |
| Furigana.StripIsSubsequence | kindle_to_json.py:84 | the result is a subsequence of the input |
| Furigana.StripLeavesNoBracketPair | kindle_to_json.py:84 | after stripping, no opener has a closer on its own line |
| Furigana.StripLeavesNoAnnotation | kindle_to_json.py:82-84 | between any opener and later closer of the result lies a line break |
| Furigana.StripFixesNoBracketPair | kindle_to_json.py:84 | text with no opener-closer pair on a line is a fixed point |
| Furigana.StripIdempotent | kindle_to_json.py:84 | stripping twice equals stripping once |
| Furigana.StripPlainPrefix | kindle_to_json.py:84 | text before the first opener is copied through |
| Furigana.StripExample | kindle_to_json.py:82-84 | `(なつ)夏は暑い[あつい]` becomes `夏は暑い` |
| Furigana.NestedExample | kindle_to_json.py:84 | `((a)b)` becomes `b)`: the match stops at the first closer |
| Text.Join | kindle_to_json.py:72-74 | a non-empty join is as long as its parts plus one separator per gap and begins with the first part |
| Text.JoinContents | kindle_to_json.py:72-74 | a join holds part `k` right after the parts before it and their separators, and the separator after every part but the last |
| Text.Split | kindle_to_json.py:162 | at least one piece, no piece holds the separator, and more than one piece exactly when the separator occurs |
| Text.JoinSplit | kindle_to_json.py:162 | joining the pieces with the separator gives back the key |
| Text.SplitJoin | kindle_to_json.py:162 | splitting a join of separator-free pieces gives back the pieces |
| Text.LexLess | kindle_to_json.py:151 | a proper prefix is less, and otherwise the first differing character decides |
| Text.LexLessIrreflexive | kindle_to_json.py:151 | no usage is less than itself |
| Text.LexLessTransitive | kindle_to_json.py:151 | the usage order is transitive |
| Text.LexLessTotal | kindle_to_json.py:151 | two different usages are always ordered one way or the other |
| Text.LeadingCount | kindle_to_json.py:193 | the number of leading characters `lstrip` removes: all removed are accepted, the next is not |
| Text.TrailingCount | kindle_to_json.py:193 | the number of trailing characters `rstrip` removes |
| Text.IsSpace | kindle_to_json.py:193 | the default set of `strip()`: every ASCII white-space character is in it and no printable ASCII character is |
| Text.LStrip | kindle_to_json.py:193 | never longer; every leading character removed is accepted and the result does not start with an accepted character |
| Text.RStrip | kindle_to_json.py:193 | never longer; every trailing character removed is accepted and the result does not end with an accepted character |
| Text.StripSidesAreSlices | kindle_to_json.py:193 | what `lstrip` leaves is a suffix of the input and what `rstrip` leaves is a prefix |
| Text.Strip | kindle_to_json.py:193 | never longer, and neither end of what is left is accepted |
| Text.StripIsBothEnds | kindle_to_json.py:193 | `rstrip` followed by `lstrip` with the same set equals `strip` with it |
| Text.StripBounds | kindle_to_json.py:193 | `strip` leaves a slice with only stripped characters around it and none at its ends |
| Text.StripTwiceBounds | kindle_to_json.py:193 | stripping by a set and then by a wider set is described by the wider set alone |
| VocabDb.Survives | kindle_to_json.py:148-152 | a row passes NOT EXISTS exactly when its usage is a greatest one among the rows with its word key |
| VocabDb.SelectRows | kindle_to_json.py:145-155 | a row is returned for a book exactly when it belongs to the book and no row of LOOKUPS (any book) with its word key has a greater usage |
| VocabDb.BookQuery | kindle_to_json.py:145-155 | the book's surviving rows, and all returned rows of one word key carry the same usage |
| VocabDb.TiesSurviveTogether | kindle_to_json.py:148-152 | rows with the same key and usage survive or vanish together |
| VocabDb.SurvivorsShareUsage | kindle_to_json.py:148-152 | all surviving rows of one word key carry the same usage |
| VocabDb.GreatestUsage | kindle_to_json.py:148-152 | every word key present has a row with the greatest usage |
| VocabDb.SomeRowSurvives | kindle_to_json.py:148-152 | every word key of LOOKUPS keeps at least one row in some book |
| VocabDb.OtherBookSuppressesExample | kindle_to_json.py:148-152 | a greater usage in another book removes the word from this book |
| VocabDb.LongerUsageKeptExample | kindle_to_json.py:144-152 | of usages `a` and `zzz` the longer one is kept |
| VocabDb.KeyWord | kindle_to_json.py:159-162 | undefined exactly when the key has no `:`; the word never holds `:` |
| VocabDb.KeyWordOfNamespacedKey | kindle_to_json.py:159-162 | for `lang:word` optionally followed by `:...`, the word is what lies between the first two `:` |
| VocabDb.KeyWordExample | kindle_to_json.py:162 | `ja:犬` gives `犬`, `ja:猫` gives `猫` |
| VocabDb.EnrichRow | kindle_to_json.py:162-163 | no record exactly for a refused word; the record's word is the key's word, free of `:`; a non-empty usage is the sample |
| VocabDb.BookWords | kindle_to_json.py:157-166 | fails exactly when a returned key has no `:`; otherwise every record is the record of a returned row and every row with a usable word contributes its record |
| VocabDb.BookGroups | kindle_to_json.py:132-166 | one group per BOOK_INFO row, in order, with its title and the words of its own query |
| VocabDb.BuildDocument | kindle_to_json.py:117-173 | on success the document has one group per book with the books' titles in order |
| VocabDb.BuildDocumentFailsOnMalformedKey | kindle_to_json.py:145-163 | the run fails exactly when a listed book's query returns a key without `:` |
| VocabDb.EmptyBookKeepsItsGroup | kindle_to_json.py:132-155 | a book whose query returns nothing (no lookups, or all outranked by another book's) still appears, with an empty word list |
| WordList.Normalize | kindle_to_json.py:193 | a cleaned cell is never longer and is empty or has no white space at either end |
| WordList.NormalizeBounds | kindle_to_json.py:193 | a cell is cut to a slice with only white space around it and none at its ends |
| WordList.NormalizePadded | kindle_to_json.py:193 | white space around a word is all that is removed |
| WordList.CleanWordNotSkipped | kindle_to_json.py:47-48 | a non-empty cleaned cell is never refused by the enricher |
| WordList.Flatten | kindle_to_json.py:191-192 | every cell of every row is visited, and nothing else |
| WordList.Words | kindle_to_json.py:191-195 | every enriched word is non-empty and has no white space at either end |
| WordList.WordsAppend | kindle_to_json.py:191-197 | one more cell adds exactly its cleaned text, unless that is empty |
| WordList.WordsFromCells | kindle_to_json.py:191-194 | every word comes from some cell |
| WordList.CellsGiveWords | kindle_to_json.py:191-197 | every cell with non-blank text yields its word |
| WordList.EnrichedWords | kindle_to_json.py:194-197 | never more records than words |
| WordList.EnrichedWordsFromWords | kindle_to_json.py:194-197 | every record is for one of the words and never for a refused word |
| WordList.EnrichedCleanWords | kindle_to_json.py:194-197 | for cleaned words no record is dropped and record k belongs to word k |
| WordList.AppendRow | kindle_to_json.py:192-197 | the inner loop appends the records of one row in column order |
| WordList.CollectRows | kindle_to_json.py:191-197 | the outer loop collects the records of all rows, row after row |
| WordList.BuildDocument | kindle_to_json.py:175-200 | exactly one group titled `DEFAULT_TITLE_REPLACE_ME`, holding one record per non-blank cell in row-then-column order |
| Pipeline.EndsWith | kindle_to_json.py:209 | true exactly when the string is some stem followed by the suffix |
| Pipeline.ModeOf | kindle_to_json.py:209-213 | the store mode is chosen exactly for paths of the form `stem + "db"` |
| Pipeline.Run | kindle_to_json.py:208-213 | word-list mode succeeds with one default group holding the records of the cleaned cells in row-then-column order (the raising service calls are not modelled); store mode is the store builder, with one group per book on success |

## Left out

- HTTP (`requests.get` to the Jisho search endpoint) and the `jisho_api` `Sentence.request` call: their replies are inputs, and the endpoint URL is not modelled.
- Exceptions from the services: `requests.get` failing to connect or timing out, `res.json()` on a body that is not JSON (kindle_to_json.py:50-51), and `Sentence.request` raising outside the `try` (kindle_to_json.py:78). Each aborts the whole run after `kindle_data.json` was opened with `w+` and so emptied (kindle_to_json.py:122, 176). In the model every reply is well formed, so `Enricher.Enrich` is total and word-list mode always succeeds.
- A response is falsy exactly when `requests` says it is not `ok`; the model takes that verdict as the `RequestFailed` reply rather than modelling status codes.
- SQLite connection and cursor handling; rows are given in table order. SQLite promises no order without ORDER BY, so the row filter is stated as membership (`VocabDb.SelectRows`); NULL usages are not modelled.
- Text.LexLess: BINARY collation compares the stored bytes; the model assumes a UTF-8 database, where that is code point order. A UTF-16 database orders differently: UTF-16BE for characters outside the Basic Multilingual Plane, and UTF-16LE even within it, because `memcmp` compares the low byte first.
- WordList.EnrichedWords: its own contract states only the length bound; the word-for-record correspondence is stated by `WordList.EnrichedWordsFromWords` and `WordList.EnrichedCleanWords`, to keep the proofs that unfold it small.
- Repeated requests: the services are modelled as functions of the word, so the same word asked twice in one run gets the same reply. The script sends a fresh request each time, and two replies can differ (a rate-limited reply is falsy).
- `csv.reader` quoting and dialect rules: rows arrive already split into cells.
- `json.dumps`, opening and overwriting `kindle_data.json`, `print` logging, `sys.argv` and `exit(1)` for a missing argument.
- The exception path at kindle_to_json.py:85-86, where a malformed sentence reply leaves `sample` bound to the reply object: the reply is modelled as either nothing or at least one sentence string.
- JSON `null` for a present key: a key is modelled as present or missing only.
- A failing run is modelled as a `Failure` carrying the malformed word key; what Python prints for the uncaught IndexError is not modelled.

=== FILE: enricher.dfy ===
/** `create_json_from_word`: the per-word record built from the word, an
    optional sample sentence, the dictionary service's reply and the sentence
    service's reply. The two network calls are not modelled; their replies
    are inputs. */
module Enricher {
  import opened Wrappers
  import opened Records
  import Text
  import Furigana

  const NoDefinition := "NO DEFINITION FOUND"
  const NoReading := "NO READING FOUND"
  /** The separator of `', '.join(...)`. */
  const ListSeparator := ", "

  /** One item of an entry's `japanese` list; `reading` may be missing. */
  datatype Variant = Variant(reading: Option<string>)

  /** One item of an entry's `senses` list; either key may be missing. */
  datatype Sense = Sense(englishDefinitions: Option<seq<string>>, partsOfSpeech: Option<seq<string>>)

  /** One item of the reply's `data` list; either key may be missing. */
  datatype Entry = Entry(japanese: Option<seq<Variant>>, senses: Option<seq<Sense>>)

  /** The dictionary search reply: a falsy response (an HTTP error status),
      or a JSON body whose `data` key may be missing. */
  datatype SearchReply = RequestFailed | Received(data: Option<seq<Entry>>)

  /** The sentence service's reply: nothing (a falsy result), or at least one
      sentence, each given by its Japanese text. */
  datatype SentenceReply = NoSentences | Sentences(first: string, others: seq<string>)

  /** `d.get(key, [])`. */
  function ListOr<T>(field: Option<seq<T>>): seq<T> {
    field.GetOr([])
  }

  /** Words the program refuses at the top of create_json_from_word: each
      is empty or a single white-space character. */
  predicate IsSkippedWord(word: string): (r: bool)
    ensures r ==> |word| <= 1 && forall i :: 0 <= i < |word| ==> Text.IsSpace(word[i])
  {
    word == "" || word == "\n" || word == "\r" || word == "\t"
  }

  /** The dictionary returned at least one entry. */
  predicate HasResults(reply: SearchReply): (r: bool)
    ensures r <==> reply.Received? && reply.data.Some? && reply.data.value != []
  {
    reply.Received? && |ListOr(reply.data)| > 0
  }

  /** Python truthiness of an optional string. */
  predicate IsTruthy(sample: Option<string>) {
    sample.Some? && sample.value != ""
  }

  /** The falsy samples are exactly `None` and `''`. */
  lemma FalsySamples(sample: Option<string>)
    ensures !IsTruthy(sample) <==> sample == None || sample == Some("")
  {
  }

  /** The glosses of the entry's first sense; empty when it has no sense. */
  function FirstSenseGlosses(e: Entry): seq<string> {
    var senses := ListOr(e.senses);
    if |senses| == 0 then [] else ListOr(senses[0].englishDefinitions)
  }

  /** The tags of the entry's first sense; empty when it has no sense. */
  function FirstSenseTags(e: Entry): seq<string> {
    var senses := ListOr(e.senses);
    if |senses| == 0 then [] else ListOr(senses[0].partsOfSpeech)
  }

  /** The loop `for i in range(min(limit, len(defs))): found_defs.append(defs[i])`. */
  function LeadingGlosses(defs: seq<string>, limit: nat): (found: seq<string>)
    ensures |found| == if |defs| < limit then |defs| else limit
    ensures found == defs[..|found|]
    decreases limit
  {
    if limit == 0 || |defs| == 0 then []
    else [defs[0]] + LeadingGlosses(defs[1..], limit - 1)
  }

  /** The `definition` field for a first result `e`. */
  function DefinitionOf(e: Entry): (d: string)
    ensures var glosses := FirstSenseGlosses(e);
      && (|glosses| == 0 ==> d == NoDefinition)
      && (|glosses| == 1 ==> d == glosses[0])
      && (|glosses| >= 2 ==> d == glosses[0] + ListSeparator + glosses[1])
  {
    var senses := ListOr(e.senses);
    if |senses| == 0 then NoDefinition
    else
      var found := LeadingGlosses(ListOr(senses[0].englishDefinitions), 2);
      if |found| == 0 then NoDefinition
      else
        var joined := Text.Join(found, ListSeparator);
        assert |found| == 2 ==> joined == found[0] + ListSeparator + found[1] by {
          if |found| == 2 {
            assert found[1..] == [found[1]];
            assert Text.Join(found[1..], ListSeparator) == found[1];
          }
        }
        joined
  }

  /** The `reading` field for a first result `e`. */
  function ReadingOf(e: Entry): (r: string)
    ensures |ListOr(e.japanese)| == 0 ==> r == NoReading
    ensures |ListOr(e.japanese)| > 0 && ListOr(e.japanese)[0].reading.None? ==> r == NoReading
    ensures |ListOr(e.japanese)| > 0 && ListOr(e.japanese)[0].reading.Some? ==>
      r == ListOr(e.japanese)[0].reading.value
  {
    var japanese := ListOr(e.japanese);
    if |japanese| > 0 then japanese[0].reading.GetOr(NoReading) else NoReading
  }

  /** The `part_of_speech` field for a first result `e`: every tag of the first
      sense, in order, with `, ` between neighbours; never the reading or
      definition sentinel. */
  function PartOfSpeechOf(e: Entry): (p: string)
    ensures |FirstSenseTags(e)| == 0 ==> p == ""
    ensures |FirstSenseTags(e)| > 0 ==> Text.IsJoinOf(p, FirstSenseTags(e), ListSeparator)
  {
    var senses := ListOr(e.senses);
    if |senses| == 0 then ""
    else
      var pos := ListOr(senses[0].partsOfSpeech);
      var joined := Text.Join(pos, ListSeparator);
      assert |pos| > 0 ==> Text.IsJoinOf(joined, pos, ListSeparator) by {
        if |pos| > 0 {
          Text.JoinContents(pos, ListSeparator);
        }
      }
      joined
  }

  /** The sample taken from the sentence service: the first sentence with its
      bracketed readings removed, or `''` when the service gave nothing. */
  function ServiceSample(reply: SentenceReply): (s: string)
    ensures reply.NoSentences? ==> s == ""
    ensures reply.Sentences? ==> |s| <= |reply.first|
    ensures reply.Sentences? ==> Furigana.IsSubsequence(s, reply.first)
  {
    match reply
    case NoSentences => ""
    case Sentences(first, _) =>
      Furigana.StripIsSubsequence(first);
      Furigana.StripAnnotations(first)
  }

  /** The sentence service is asked only when the dictionary had results and
      the caller gave no (or an empty) sample. */
  predicate AsksSentenceService(word: string, sample: Option<string>, reply: SearchReply) {
    !IsSkippedWord(word) && HasResults(reply) && !IsTruthy(sample)
  }

  /** In the reply's and the sample's own terms: the word is not refused,
      the request succeeded with a non-empty `data` list, and the caller's
      sample is `None` or `''`. Such a word is never empty. */
  lemma SentenceServiceCondition(word: string, sample: Option<string>, reply: SearchReply)
    ensures AsksSentenceService(word, sample, reply) ==> word != ""
    ensures AsksSentenceService(word, sample, reply) <==>
      (!IsSkippedWord(word) && reply.Received? && reply.data.Some? && reply.data.value != [] &&
       (sample == None || sample == Some("")))
  {
  }

  /** create_json_from_word(word, sample): `None` for a skipped word, else the
      record. `sentences` is what the sentence service would answer for `word`. */
  function Enrich(word: string, sample: Option<string>, reply: SearchReply, sentences: SentenceReply)
    : (r: Option<WordRecord>)
    ensures r.None? <==> IsSkippedWord(word)
    ensures r.Some? ==> r.value.word == word
    ensures r.Some? && !HasResults(reply) ==>
      && r.value.definition == NoDefinition
      && r.value.reading == NoReading
      && r.value.partOfSpeech == ""
      && r.value.sample == sample
    ensures r.Some? && HasResults(reply) ==>
      var first := reply.data.value[0];
      && r.value.definition == DefinitionOf(first)
      && r.value.reading == ReadingOf(first)
      && r.value.partOfSpeech == PartOfSpeechOf(first)
      && r.value.sample.Some?
    ensures r.Some? && IsTruthy(sample) ==> r.value.sample == sample
  {
    if IsSkippedWord(word) then None
    else if !HasResults(reply) then
      Some(WordRecord(word, NoDefinition, NoReading, "", sample))
    else
      var entry := reply.data.value[0];
      var sample' := if IsTruthy(sample) then sample else Some(ServiceSample(sentences));
      Some(WordRecord(word, DefinitionOf(entry), ReadingOf(entry), PartOfSpeechOf(entry), sample'))
  }

  /** The definition holds at most two glosses, never more than the first
      sense offers, taken from its front. */
  lemma DefinitionAtMostTwoGlosses(e: Entry)
    ensures DefinitionOf(e) == NoDefinition ||
      exists n :: 1 <= n <= 2 && n <= |FirstSenseGlosses(e)|
        && DefinitionOf(e) == Text.Join(FirstSenseGlosses(e)[..n], ListSeparator)
  {
  }

  /** Whatever the sentence service would say does not matter unless it is asked. */
  lemma SentenceServiceOnlyWhenAsked(word: string, sample: Option<string>, reply: SearchReply,
                                     s1: SentenceReply, s2: SentenceReply)
    requires !AsksSentenceService(word, sample, reply)
    ensures Enrich(word, sample, reply, s1) == Enrich(word, sample, reply, s2)
  {
  }

  /** When asked, the service's first sentence becomes the sample, stripped. */
  lemma SentenceServiceUsedWhenAsked(word: string, sample: Option<string>, reply: SearchReply,
                                     first: string, others: seq<string>)
    requires AsksSentenceService(word, sample, reply)
    ensures Enrich(word, sample, reply, Sentences(first, others)).value.sample
      == Some(Furigana.StripAnnotations(first))
    ensures Enrich(word, sample, reply, NoSentences).value.sample == Some("")
  {
  }
}

=== FILE: furigana.dfy ===
/** The furigana remover of kindle_to_json.py line 84:
    `re.sub("[\(\[].*?[\)\]]", "", sample)`. The pattern matches an opener
    `(` or `[`, then as few characters other than a line break as possible,
    then a closer `)` or `]`; opener and closer kinds need not agree. `re.sub`
    scans left to right, deletes each match and resumes after it, and copies
    every character where no match starts. */
module Furigana {
  import opened Wrappers

  predicate IsOpener(c: char) { c == '(' || c == '[' }

  predicate IsCloser(c: char) { c == ')' || c == ']' }

  /** Every closer in `t` comes after a line break: `.` cannot cross `\n`, so
      no match can reach such a closer from the start of `t`. */
  ghost predicate NoCloserOnLine(t: string) {
    forall j :: 0 <= j < |t| && IsCloser(t[j]) ==> '\n' in t[..j]
  }

  /** Where the lazy `.*?` followed by a closer ends, scanning from `k`:
      the first closer at or after `k` with no line break before it. */
  function FindCloser(s: string, k: nat): (j: Option<nat>)
    requires k <= |s|
    ensures j.Some? ==> k <= j.value < |s| && IsCloser(s[j.value])
    ensures j.Some? ==> '\n' !in s[k..j.value]
    ensures j.Some? ==> forall m :: k <= m < j.value ==> !IsCloser(s[m])
    ensures j.None? <==> NoCloserOnLine(s[k..])
    decreases |s| - k
  {
    if k == |s| then None
    else if s[k] == '\n' then
      assert forall j :: 0 < j <= |s| - k ==> s[k..][..j][0] == '\n';
      None
    else if IsCloser(s[k]) then
      assert s[k..][0] == s[k];
      Some(k)
    else
      var r := FindCloser(s, k + 1);
      assert forall j :: 0 < j <= |s| - k ==> s[k..][..j] == [s[k]] + s[k + 1..][..j - 1];
      assert forall j :: 0 < j < |s| - k ==> s[k..][j] == s[k + 1..][j - 1];
      assert r.Some? ==> s[k..r.value] == [s[k]] + s[k + 1..r.value];
      r
  }

  /** The text with every bracketed annotation removed. */
  function StripAnnotations(s: string): (r: string)
    ensures |r| <= |s|
    ensures (forall i :: 0 <= i < |s| ==> !IsOpener(s[i])) ==> r == s
    decreases |s|
  {
    if |s| == 0 then ""
    else if IsOpener(s[0]) && FindCloser(s, 1).Some? then
      StripAnnotations(s[FindCloser(s, 1).value + 1..])
    else
      [s[0]] + StripAnnotations(s[1..])
  }

  /** A match, an opener, a same-line run without closers and a closer, is
      deleted together with the reading inside it. */
  lemma StripDeletesMatch(o: char, m: string, c: char, t: string)
    requires IsOpener(o) && IsCloser(c)
    requires forall i :: 0 <= i < |m| ==> m[i] != '\n' && !IsCloser(m[i])
    ensures StripAnnotations([o] + m + [c] + t) == StripAnnotations(t)
  {
    var s := [o] + m + [c] + t;
    assert s[0] == o;
    assert s[1..|m| + 1] == m;
    assert s[|m| + 1] == c;
    assert forall i :: 1 <= i < |m| + 1 ==> s[i] == m[i - 1];
    assert FindCloser(s, 1) == Some(|m| + 1);
    assert s[|m| + 2..] == t;
  }

  /** A character that starts no match, a non-opener or an opener with no
      closer on its line, is copied. */
  lemma StripKeepsUnmatched(c: char, t: string)
    requires !IsOpener(c) || NoCloserOnLine(t)
    ensures StripAnnotations([c] + t) == [c] + StripAnnotations(t)
  {
  }

  /** `a` is obtained from `b` by deleting characters. */
  predicate IsSubsequence(a: string, b: string)
    decreases |b|
  {
    if |a| == 0 then true
    else if |b| == 0 then false
    else (a[0] == b[0] && IsSubsequence(a[1..], b[1..])) || IsSubsequence(a, b[1..])
  }

  lemma {:induction false} SubsequenceOfSuffix(a: string, b: string, n: nat)
    requires n <= |b|
    requires IsSubsequence(a, b[n..])
    ensures IsSubsequence(a, b)
    decreases n
  {
    if n > 0 {
      assert b[1..][n - 1..] == b[n..];
      SubsequenceOfSuffix(a, b[1..], n - 1);
      if |a| > 0 {
        assert IsSubsequence(a, b[1..]);
      }
    }
  }

  /** The stripper only deletes: its output is a subsequence of its input. */
  lemma {:induction false} StripIsSubsequence(s: string)
    ensures IsSubsequence(StripAnnotations(s), s)
    decreases |s|
  {
    if |s| > 0 {
      if IsOpener(s[0]) && FindCloser(s, 1).Some? {
        var j := FindCloser(s, 1).value;
        StripIsSubsequence(s[j + 1..]);
        SubsequenceOfSuffix(StripAnnotations(s), s, j + 1);
      } else {
        StripIsSubsequence(s[1..]);
      }
    }
  }

  /** No opener of `t` is followed by a closer on its own line. */
  ghost predicate NoBracketPair(t: string) {
    forall i :: 0 <= i < |t| && IsOpener(t[i]) ==> NoCloserOnLine(t[i + 1..])
  }

  /** An opener at the start of a text whose first line holds no closer
      starts no match. */
  lemma OpenerWithoutMatch(t: string)
    requires |t| > 0 && IsOpener(t[0]) && NoCloserOnLine(t)
    ensures FindCloser(t, 1).None?
  {
    NoCloserOnLineTail(t);
  }

  /** The first line of `t` minus its first character still holds no closer. */
  lemma NoCloserOnLineTail(t: string)
    requires |t| > 0 && t[0] != '\n' && NoCloserOnLine(t)
    ensures !IsCloser(t[0]) && NoCloserOnLine(t[1..])
  {
    assert t[..0] == [];
    forall j | 0 <= j < |t[1..]| && IsCloser(t[1..][j])
      ensures '\n' in t[1..][..j]
    {
      assert t[..j + 1] == [t[0]] + t[1..][..j];
    }
  }

  /** Prepending a line break, or a character that is no closer, keeps the
      first line free of closers. */
  lemma NoCloserOnLineCons(c: char, r: string)
    requires c == '\n' || (!IsCloser(c) && NoCloserOnLine(r))
    ensures NoCloserOnLine([c] + r)
  {
    forall j | 0 <= j < |[c] + r| && IsCloser(([c] + r)[j])
      ensures '\n' in ([c] + r)[..j]
    {
      assert j > 0;
      assert ([c] + r)[..j] == [c] + r[..j - 1];
      if c != '\n' {
        assert '\n' in r[..j - 1];
      }
    }
  }

  /** Stripping a text whose first line holds no closer leaves a text whose
      first line holds no closer: no match starts before the first line break,
      and every line break is kept. */
  lemma {:induction false} StripKeepsNoCloserOnLine(t: string)
    requires NoCloserOnLine(t)
    ensures NoCloserOnLine(StripAnnotations(t))
    decreases |t|
  {
    if |t| > 0 {
      if IsOpener(t[0]) {
        OpenerWithoutMatch(t);
      }
      assert StripAnnotations(t) == [t[0]] + StripAnnotations(t[1..]);
      if t[0] != '\n' {
        NoCloserOnLineTail(t);
        StripKeepsNoCloserOnLine(t[1..]);
      }
      NoCloserOnLineCons(t[0], StripAnnotations(t[1..]));
    }
  }

  /** Prepending a character that is not an opener keeps NoBracketPair. */
  lemma ConsKeepsNoBracketPair(c: char, t: string)
    requires NoBracketPair(t)
    requires IsOpener(c) ==> NoCloserOnLine(t)
    ensures NoBracketPair([c] + t)
  {
    forall i | 0 <= i < |[c] + t| && IsOpener(([c] + t)[i])
      ensures NoCloserOnLine(([c] + t)[i + 1..])
    {
      if i > 0 {
        assert ([c] + t)[i + 1..] == t[i..];
      } else {
        assert ([c] + t)[1..] == t;
      }
    }
  }

  /** After stripping, no opener is followed by a closer on the same line. */
  lemma {:induction false} StripLeavesNoBracketPair(s: string)
    ensures NoBracketPair(StripAnnotations(s))
    decreases |s|
  {
    if |s| > 0 {
      if IsOpener(s[0]) && FindCloser(s, 1).Some? {
        StripLeavesNoBracketPair(s[FindCloser(s, 1).value + 1..]);
      } else {
        StripLeavesNoBracketPair(s[1..]);
        if IsOpener(s[0]) {
          StripKeepsNoCloserOnLine(s[1..]);
        }
        ConsKeepsNoBracketPair(s[0], StripAnnotations(s[1..]));
      }
    }
  }

  /** The same fact stated with two positions: between an opener and a later
      closer of the output there is always a line break. */
  lemma StripLeavesNoAnnotation(s: string)
    ensures var r := StripAnnotations(s);
      forall i, j :: 0 <= i < j < |r| && IsOpener(r[i]) && IsCloser(r[j]) ==> '\n' in r[i + 1..j]
  {
    var r := StripAnnotations(s);
    StripLeavesNoBracketPair(s);
    forall i, j | 0 <= i < j < |r| && IsOpener(r[i]) && IsCloser(r[j])
      ensures '\n' in r[i + 1..j]
    {
      assert NoCloserOnLine(r[i + 1..]);
      assert r[i + 1..][j - i - 1] == r[j];
      assert r[i + 1..][..j - i - 1] == r[i + 1..j];
    }
  }

  /** A text with no bracket pair on one line is a fixed point. */
  lemma {:induction false} StripFixesNoBracketPair(t: string)
    requires NoBracketPair(t)
    ensures StripAnnotations(t) == t
    decreases |t|
  {
    if |t| > 0 {
      if IsOpener(t[0]) {
        assert t[1..] == t[0 + 1..];
        assert FindCloser(t, 1).None?;
      }
      assert NoBracketPair(t[1..]) by {
        forall i | 0 <= i < |t[1..]| && IsOpener(t[1..][i])
          ensures NoCloserOnLine(t[1..][i + 1..])
        {
          assert t[1..][i + 1..] == t[i + 2..];
        }
      }
      StripFixesNoBracketPair(t[1..]);
      assert t == [t[0]] + t[1..];
    }
  }

  /** Stripping twice is stripping once. */
  lemma StripIdempotent(s: string)
    ensures StripAnnotations(StripAnnotations(s)) == StripAnnotations(s)
  {
    StripLeavesNoBracketPair(s);
    StripFixesNoBracketPair(StripAnnotations(s));
  }

  /** Text before the first opener is copied through unchanged. */
  lemma {:induction false} StripPlainPrefix(p: string, t: string)
    requires forall i :: 0 <= i < |p| ==> !IsOpener(p[i])
    ensures StripAnnotations(p + t) == p + StripAnnotations(t)
    decreases |p|
  {
    if |p| == 0 {
      assert p + t == t;
    } else {
      ConsSplit(p, t);
      StripPlainPrefix(p[1..], t);
      StripPlainHead(p + t);
      ConsSplit(p, StripAnnotations(t));
    }
  }

  /** A character that opens nothing is copied through. */
  lemma StripPlainHead(s: string)
    requires |s| > 0 && !IsOpener(s[0])
    ensures StripAnnotations(s) == [s[0]] + StripAnnotations(s[1..])
  {
  }

  lemma ConsSplit(p: string, t: string)
    requires |p| > 0
    ensures (p + t)[0] == p[0] && (p + t)[1..] == p[1..] + t
    ensures p + t == [p[0]] + (p[1..] + t)
  {
  }

  lemma BracketedReadingExample()
    ensures StripAnnotations("[あつい]") == ""
  {
    var u := "[あつい]";
    assert FindCloser(u, 1) == Some(4) by {
      assert FindCloser(u, 4) == Some(4);
      assert FindCloser(u, 3) == Some(4);
      assert FindCloser(u, 2) == Some(4);
    }
    assert u[5..] == "";
  }

  lemma PlainSentenceExample()
    ensures StripAnnotations("夏は暑い" + "[あつい]") == "夏は暑い" + StripAnnotations("[あつい]")
  {
    var p := "夏は暑い";
    assert forall i :: 0 <= i < |p| ==> !IsOpener(p[i]);
    StripPlainPrefix(p, "[あつい]");
  }

  /** Readings in both kinds of bracket are removed, wherever they stand. */
  lemma StripExample()
    ensures StripAnnotations("(なつ)夏は暑い[あつい]") == "夏は暑い"
  {
    var s := "(なつ)夏は暑い[あつい]";
    assert FindCloser(s, 1) == Some(3) by {
      assert FindCloser(s, 3) == Some(3);
      assert FindCloser(s, 2) == Some(3);
    }
    assert s[4..] == "夏は暑い" + "[あつい]";
    BracketedReadingExample();
    PlainSentenceExample();
  }

  /** The lazy match stops at the first closer, so a nested pair leaves the
      outer closer behind. */
  lemma NestedExample()
    ensures StripAnnotations("((a)b)") == "b)"
  {
    var s := "((a)b)";
    assert FindCloser(s, 1) == Some(3);
    assert StripAnnotations(s[4..]) == "b)";
  }
}

=== FILE: pipeline.dfy ===
/** The entry point of kindle_to_json.py: the input path picks the mode. */
module Pipeline {
  import opened Wrappers
  import opened Records
  import Enricher
  import VocabDb
  import WordList

  datatype Mode = VocabDbMode | WordListMode

  /** `s.endswith(suffix)`: `s` is some stem followed by `suffix`. */
  predicate EndsWith(s: string, suffix: string): (r: bool)
    ensures r <==> exists stem :: s == stem + suffix
  {
    var r := |suffix| <= |s| && s[|s| - |suffix|..] == suffix;
    assert r ==> s == s[..|s| - |suffix|] + suffix;
    assert (exists stem :: s == stem + suffix) ==> r by {
      if exists stem :: s == stem + suffix {
        var stem :| s == stem + suffix;
        assert s[|s| - |suffix|..] == suffix;
      }
    }
    r
  }

  /** `db.endswith('db')` chooses the store mode; anything else is read as a
      word list. The store mode is chosen exactly for the paths whose last two
      characters are `db`, whatever precedes them (`vocab.db`, but also
      `mydb`). */
  function ModeOf(path: string): (m: Mode)
    ensures m == VocabDbMode <==> exists stem :: path == stem + "db"
  {
    if EndsWith(path, "db") then VocabDbMode else WordListMode
  }

  /** The whole run for the path given on the command line. `store` is what
      the SQLite reader would see and `rows` what the CSV reader would see;
      only the one the mode selects is read. */
  method Run(path: string, store: VocabDb.Store, rows: seq<seq<string>>,
             search: string -> Enricher.SearchReply, sentences: string -> Enricher.SentenceReply)
    returns (r: Result<Document, string>)
    ensures ModeOf(path) == WordListMode ==>
      r.Success? && |r.value.books| == 1 && r.value.books[0].title == WordList.DefaultTitle &&
      r.value.books[0].words == WordList.EnrichedWords(WordList.Words(WordList.Flatten(rows)), search, sentences)
    ensures ModeOf(path) == VocabDbMode ==> r == VocabDb.BuildDocument(store, search, sentences)
    ensures ModeOf(path) == VocabDbMode && r.Success? ==> |r.value.books| == |store.books|
  {
    if ModeOf(path) == VocabDbMode {
      r := VocabDb.BuildDocument(store, search, sentences);
    } else {
      var doc := WordList.BuildDocument(rows, search, sentences);
      r := Success(doc);
    }
  }
}

=== FILE: records.dfy ===
/** The output document written to kindle_data.json. */
module Records {
  import opened Wrappers

  /** One enriched word. `sample` is `None` where the program puts Python's
      `None` (JSON `null`) into the record. */
  datatype WordRecord = WordRecord(
    word: string,
    definition: string,
    reading: string,
    partOfSpeech: string,
    sample: Option<string>)

  /** The words looked up in one book, in the order they were enriched. */
  datatype BookGroup = BookGroup(title: string, words: seq<WordRecord>)

  /** `{ "books": [ ... ] }`. */
  datatype Document = Document(books: seq<BookGroup>)
}

=== FILE: text.dfy ===
/** String helpers with the semantics of the Python built-ins the program uses:
    `sep.join`, `str.split`, `str.strip` and friends, and the BINARY collation
    SQLite applies when it compares two TEXT values with `<`. */
module Text {

  /** `sep.join(parts)`. */
  function Join(parts: seq<string>, sep: string): (r: string)
    ensures |parts| > 0 ==> |r| == TotalLength(parts) + |sep| * (|parts| - 1)
    ensures |parts| > 0 ==> r[..|parts[0]|] == parts[0]
  {
    if |parts| == 0 then ""
    else if |parts| == 1 then parts[0]
    else parts[0] + sep + Join(parts[1..], sep)
  }

  /** Sum of the lengths of `parts`. */
  function TotalLength(parts: seq<string>): nat {
    if |parts| == 0 then 0 else |parts[0]| + TotalLength(parts[1..])
  }

  /** Where part `k` begins in `Join(parts, sep)`: after the `k` parts before
      it and one separator behind each of them. */
  function PartStart(parts: seq<string>, sep: string, k: nat): nat
    requires k <= |parts|
  {
    TotalLength(parts[..k]) + |sep| * k
  }

  /** `r` is `parts` laid end to end with `sep` between neighbours: it has the
      length that takes, holds part `k` at `PartStart(k)` and the separator
      right after every part but the last. */
  ghost predicate IsJoinOf(r: string, parts: seq<string>, sep: string) {
    && |parts| > 0
    && |r| == TotalLength(parts) + |sep| * (|parts| - 1)
    && PartsAt(r, parts, sep)
    && SeparatorsAt(r, parts, sep)
  }

  ghost predicate PartsAt(r: string, parts: seq<string>, sep: string) {
    forall k :: 0 <= k < |parts| ==>
      && PartStart(parts, sep, k) + |parts[k]| <= |r|
      && r[PartStart(parts, sep, k)..PartStart(parts, sep, k) + |parts[k]|] == parts[k]
  }

  ghost predicate SeparatorsAt(r: string, parts: seq<string>, sep: string) {
    forall k :: 0 <= k < |parts| - 1 ==>
      && PartStart(parts, sep, k) + |parts[k]| + |sep| <= |r|
      && r[PartStart(parts, sep, k) + |parts[k]|..PartStart(parts, sep, k) + |parts[k]| + |sep|] == sep
  }

  /** `sep.join(parts)` is the parts laid end to end with `sep` between
      neighbours, and nothing else. */
  lemma {:induction false} JoinContents(parts: seq<string>, sep: string)
    requires |parts| > 0
    ensures IsJoinOf(Join(parts, sep), parts, sep)
    decreases |parts|
  {
    if |parts| == 1 {
      assert parts[..0] == [];
      assert parts[1..] == [];
    } else {
      JoinContents(parts[1..], sep);
      assert parts == [parts[0]] + parts[1..];
      ConsJoin(parts[0], parts[1..], sep, Join(parts[1..], sep));
    }
  }

  /** Putting a part and a separator in front of a join of `rest` gives a join
      of the longer list. */
  lemma ConsJoin(p: string, rest: seq<string>, sep: string, t: string)
    requires IsJoinOf(t, rest, sep)
    ensures IsJoinOf(p + sep + t, [p] + rest, sep)
  {
    var parts := [p] + rest;
    assert parts[1..] == rest;
    assert TotalLength(parts) == |p| + TotalLength(rest);
    ConsPartsAt(p, rest, sep, t);
    ConsSeparatorsAt(p, rest, sep, t);
  }

  lemma ConsPartsAt(p: string, rest: seq<string>, sep: string, t: string)
    requires PartsAt(t, rest, sep)
    ensures PartsAt(p + sep + t, [p] + rest, sep)
  {
    forall k | 0 <= k < |[p] + rest|
      ensures PartStart([p] + rest, sep, k) + |([p] + rest)[k]| <= |p + sep + t|
      ensures (p + sep + t)[PartStart([p] + rest, sep, k)..PartStart([p] + rest, sep, k) + |([p] + rest)[k]|]
        == ([p] + rest)[k]
    {
      if k == 0 {
        FirstPartAt(p, rest, sep, t);
      } else {
        ShiftedPart(p, rest, sep, t, k - 1);
      }
    }
  }

  lemma FirstPartAt(p: string, rest: seq<string>, sep: string, t: string)
    ensures PartStart([p] + rest, sep, 0) == 0
    ensures (p + sep + t)[..|p|] == p
  {
    assert ([p] + rest)[..0] == [];
  }

  /** Part `k` of `rest` sits, in the longer join, one part and one separator
      further on. */
  lemma ShiftedPart(p: string, rest: seq<string>, sep: string, t: string, k: nat)
    requires k < |rest|
    requires PartStart(rest, sep, k) + |rest[k]| <= |t|
    requires t[PartStart(rest, sep, k)..PartStart(rest, sep, k) + |rest[k]|] == rest[k]
    ensures PartStart([p] + rest, sep, k + 1) == |p + sep| + PartStart(rest, sep, k)
    ensures (p + sep + t)[|p + sep| + PartStart(rest, sep, k)..|p + sep| + PartStart(rest, sep, k) + |rest[k]|]
      == rest[k]
  {
    PartStartShift([p] + rest, sep, k + 1);
    assert ([p] + rest)[1..] == rest;
    var a := PartStart(rest, sep, k);
    ShiftedSlice(p + sep, t, a, a + |rest[k]|);
  }

  lemma ConsSeparatorsAt(p: string, rest: seq<string>, sep: string, t: string)
    requires |rest| > 0
    requires PartsAt(t, rest, sep) && SeparatorsAt(t, rest, sep)
    ensures SeparatorsAt(p + sep + t, [p] + rest, sep)
  {
    forall k | 0 <= k < |[p] + rest| - 1
      ensures PartStart([p] + rest, sep, k) + |([p] + rest)[k]| + |sep| <= |p + sep + t|
      ensures (p + sep + t)[PartStart([p] + rest, sep, k) + |([p] + rest)[k]|..PartStart([p] + rest, sep, k) + |([p] + rest)[k]| + |sep|]
        == sep
    {
      if k == 0 {
        FirstPartAt(p, rest, sep, t);
        assert (p + sep + t)[|p|..|p| + |sep|] == sep;
      } else {
        ShiftedSeparator(p, rest, sep, t, k - 1);
      }
    }
  }

  lemma ShiftedSeparator(p: string, rest: seq<string>, sep: string, t: string, k: nat)
    requires k < |rest| - 1
    requires PartStart(rest, sep, k) + |rest[k]| + |sep| <= |t|
    requires t[PartStart(rest, sep, k) + |rest[k]|..PartStart(rest, sep, k) + |rest[k]| + |sep|] == sep
    ensures PartStart([p] + rest, sep, k + 1) == |p + sep| + PartStart(rest, sep, k)
    ensures (p + sep + t)[|p + sep| + PartStart(rest, sep, k) + |rest[k]|..|p + sep| + PartStart(rest, sep, k) + |rest[k]| + |sep|]
      == sep
  {
    PartStartShift([p] + rest, sep, k + 1);
    assert ([p] + rest)[1..] == rest;
    var a := PartStart(rest, sep, k) + |rest[k]|;
    ShiftedSlice(p + sep, t, a, a + |sep|);
  }

  /** Dropping the first part moves every later part back by that part and
      one separator. */
  lemma PartStartShift(parts: seq<string>, sep: string, k: nat)
    requires 0 < k <= |parts|
    ensures PartStart(parts, sep, k) == |parts[0]| + |sep| + PartStart(parts[1..], sep, k - 1)
  {
    assert parts[..k][1..] == parts[1..][..k - 1];
  }

  lemma ShiftedSlice(x: string, y: string, a: nat, b: nat)
    requires a <= b <= |y|
    ensures (x + y)[|x| + a..|x| + b] == y[a..b]
  {
  }

  /** `s.split(sep)` for a one-character separator: the pieces between
      consecutive occurrences of `sep`, always at least one. */
  function Split(s: string, sep: char): (parts: seq<string>)
    ensures |parts| >= 1
    ensures forall i :: 0 <= i < |parts| ==> sep !in parts[i]
    ensures sep in s <==> |parts| > 1
    decreases |s|
  {
    if |s| == 0 then [""]
    else
      var rest := Split(s[1..], sep);
      if s[0] == sep then [""] + rest
      else [[s[0]] + rest[0]] + rest[1..]
  }

  /** Joining the pieces back with the separator restores the input. */
  lemma {:induction false} JoinSplit(s: string, sep: char)
    ensures Join(Split(s, sep), [sep]) == s
    decreases |s|
  {
    if |s| > 0 {
      var rest := Split(s[1..], sep);
      JoinSplit(s[1..], sep);
      assert s == [s[0]] + s[1..];
      SplitCons(s[0], s[1..], sep);
      if s[0] == sep {
        JoinCons("", rest, [sep]);
        assert "" + [sep] + Join(rest, [sep]) == [sep] + Join(rest, [sep]);
      } else {
        JoinGrowHead(s[0], rest, [sep]);
      }
    }
  }

  /** One more part in front adds itself and a separator in front. */
  lemma JoinCons(p: string, rest: seq<string>, sep: string)
    requires |rest| > 0
    ensures Join([p] + rest, sep) == p + sep + Join(rest, sep)
  {
    assert ([p] + rest)[1..] == rest;
  }

  /** A character put in front of the first part is put in front of the join. */
  lemma JoinGrowHead(c: char, rest: seq<string>, sep: string)
    requires |rest| > 0
    ensures Join([[c] + rest[0]] + rest[1..], sep) == [c] + Join(rest, sep)
  {
    var parts := [[c] + rest[0]] + rest[1..];
    assert parts[1..] == rest[1..];
    if |rest| > 1 {
      assert Join(parts, sep) == ([c] + rest[0]) + sep + Join(rest[1..], sep);
      assert Join(rest, sep) == rest[0] + sep + Join(rest[1..], sep);
    }
  }

  /** Splitting at a separator occurrence splits the pieces the same way. */
  lemma {:induction false} SplitAround(x: string, y: string, sep: char)
    ensures Split(x + [sep] + y, sep) == Split(x, sep) + Split(y, sep)
    decreases |x|
  {
    if |x| == 0 {
      assert x + [sep] + y == [sep] + y;
      SplitCons(sep, y, sep);
    } else {
      var x1 := x[1..];
      SplitAround(x1, y, sep);
      ConsAround(x, sep, y);
      SplitCons(x[0], x1 + [sep] + y, sep);
      SplitCons(x[0], x1, sep);
      if x[0] == sep {
        ConsConcat("", Split(x1, sep), Split(y, sep));
      } else {
        HeadOfConcat([x[0]], Split(x1, sep), Split(y, sep));
      }
    }
  }

  lemma ConsAround(x: string, sep: char, y: string)
    requires |x| > 0
    ensures x == [x[0]] + x[1..]
    ensures x + [sep] + y == [x[0]] + (x[1..] + [sep] + y)
  {
  }

  lemma ConsConcat(c: string, a: seq<string>, b: seq<string>)
    ensures [c] + (a + b) == ([c] + a) + b
  {
  }

  /** One step of `Split`: the first character either ends the first piece
      or joins it. */
  lemma SplitCons(c: char, s: string, sep: char)
    ensures Split([c] + s, sep) ==
      if c == sep then [""] + Split(s, sep)
      else [[c] + Split(s, sep)[0]] + Split(s, sep)[1..]
  {
    assert ([c] + s)[1..] == s;
  }

  lemma HeadOfConcat(c: string, a: seq<string>, b: seq<string>)
    requires |a| > 0
    ensures [c + (a + b)[0]] + (a + b)[1..] == ([c + a[0]] + a[1..]) + b
  {
    assert (a + b)[1..] == a[1..] + b;
  }

  /** Splitting a join of separator-free parts gives the parts back. */
  lemma {:induction false} SplitJoin(parts: seq<string>, sep: char)
    requires |parts| > 0
    requires forall i :: 0 <= i < |parts| ==> sep !in parts[i]
    ensures Split(Join(parts, [sep]), sep) == parts
    decreases |parts|
  {
    if |parts| == 1 {
      assert Split(parts[0], sep) == [parts[0]] by {
        NoSeparatorSplit(parts[0], sep);
      }
    } else {
      var rest := parts[1..];
      assert forall i :: 0 <= i < |rest| ==> rest[i] == parts[i + 1];
      SplitJoin(rest, sep);
      assert parts == [parts[0]] + rest;
      JoinCons(parts[0], rest, [sep]);
      SplitAround(parts[0], Join(rest, [sep]), sep);
      NoSeparatorSplit(parts[0], sep);
    }
  }

  /** A string without the separator is a single piece. */
  lemma {:induction false} NoSeparatorSplit(s: string, sep: char)
    requires sep !in s
    ensures Split(s, sep) == [s]
    decreases |s|
  {
    if |s| > 0 {
      assert sep !in s[1..];
      NoSeparatorSplit(s[1..], sep);
      assert s == [s[0]] + s[1..];
    }
  }

  /** `a < b` on two TEXT values under SQLite's BINARY collation: `memcmp` of
      the encoded bytes, a proper prefix ordering first. For a UTF-8 database
      this is code point order, so the lexicographic order on characters: the
      first position where the two differ decides. */
  predicate LexLess(a: string, b: string): (lt: bool)
    ensures |a| < |b| && a == b[..|a|] ==> lt
    ensures forall i :: 0 <= i < |a| && i < |b| && a[..i] == b[..i] && a[i] != b[i] ==> (lt <==> a[i] < b[i])
    decreases |a|
  {
    if |b| == 0 then false
    else if |a| == 0 then true
    else if a[0] != b[0] then a[0] < b[0]
    else
      assert forall i :: 0 < i < |a| && i < |b| && a[..i] == b[..i] ==> a[1..][..i - 1] == b[1..][..i - 1];
      LexLess(a[1..], b[1..])
  }

  lemma {:induction false} LexLessIrreflexive(a: string)
    ensures !LexLess(a, a)
    decreases |a|
  {
    if |a| > 0 {
      LexLessIrreflexive(a[1..]);
    }
  }

  lemma {:induction false} LexLessTransitive(a: string, b: string, c: string)
    requires LexLess(a, b) && LexLess(b, c)
    ensures LexLess(a, c)
    decreases |a|
  {
    if |a| > 0 && a[0] == b[0] && b[0] == c[0] {
      LexLessTransitive(a[1..], b[1..], c[1..]);
    }
  }

  /** Any two distinct strings are ordered one way or the other. */
  lemma {:induction false} LexLessTotal(a: string, b: string)
    requires a != b
    ensures LexLess(a, b) || LexLess(b, a)
    decreases |a|
  {
    if |a| > 0 && |b| > 0 && a[0] == b[0] {
      assert a[1..] != b[1..] by {
        assert a == [a[0]] + a[1..];
        assert b == [b[0]] + b[1..];
      }
      LexLessTotal(a[1..], b[1..]);
    }
  }

  /** Python's `str.isspace` for one character: the characters CPython
      accepts there and strips by default, those of bidirectional class WS,
      B or S or of general category Zs. */
  predicate IsSpace(c: char): (r: bool)
    ensures c == ' ' || ('\t' <= c && c <= '\r') ==> r
    ensures '!' <= c && c <= '~' ==> !r
  {
    || c == ' '
    || ('\t' <= c <= '\r')
    || ('\U{1C}' <= c <= '\U{1F}')
    || c == '\U{85}'
    || c == '\U{A0}'
    || c == '\U{1680}'
    || ('\U{2000}' <= c <= '\U{200A}')
    || c == '\U{2028}'
    || c == '\U{2029}'
    || c == '\U{202F}'
    || c == '\U{205F}'
    || c == '\U{3000}'
  }

  /** Number of leading characters `strip` accepts. */
  function LeadingCount(s: string, strip: char -> bool): (n: nat)
    ensures n <= |s|
    ensures forall i :: 0 <= i < n ==> strip(s[i])
    ensures n < |s| ==> !strip(s[n])
    decreases |s|
  {
    if |s| == 0 || !strip(s[0]) then 0 else 1 + LeadingCount(s[1..], strip)
  }

  /** Number of trailing characters `strip` accepts. */
  function TrailingCount(s: string, strip: char -> bool): (n: nat)
    ensures n <= |s|
    ensures forall i :: |s| - n <= i < |s| ==> strip(s[i])
    ensures n < |s| ==> !strip(s[|s| - n - 1])
    decreases |s|
  {
    if |s| == 0 || !strip(s[|s| - 1]) then 0 else 1 + TrailingCount(s[..|s| - 1], strip)
  }

  /** `s.lstrip(chars)`, with the character set given as a predicate: the
      longest accepted prefix is removed. */
  function LStrip(s: string, strip: char -> bool): (r: string)
    ensures |r| <= |s|
    ensures forall i :: 0 <= i < |s| - |r| ==> strip(s[i])
    ensures r != [] ==> !strip(r[0])
  {
    s[LeadingCount(s, strip)..]
  }

  /** `s.lstrip(chars)` keeps a suffix of `s`, `s.rstrip(chars)` a prefix. */
  lemma StripSidesAreSlices(s: string, strip: char -> bool)
    ensures LStrip(s, strip) == s[|s| - |LStrip(s, strip)|..]
    ensures RStrip(s, strip) == s[..|RStrip(s, strip)|]
  {
  }

  /** `s.rstrip(chars)`: the longest accepted suffix is removed. */
  function RStrip(s: string, strip: char -> bool): (r: string)
    ensures |r| <= |s|
    ensures forall i :: |r| <= i < |s| ==> strip(s[i])
    ensures r != [] ==> !strip(r[|r| - 1])
  {
    s[..|s| - TrailingCount(s, strip)]
  }

  /** Where what `s.strip(chars)` keeps ends: before the accepted suffix. */
  function StripEnd(s: string, strip: char -> bool): (b: nat)
    ensures b <= |s|
  {
    |s| - TrailingCount(s, strip)
  }

  /** Where what `s.strip(chars)` keeps begins: after the accepted prefix. */
  function StripStart(s: string, strip: char -> bool): (a: nat)
    ensures a <= StripEnd(s, strip)
  {
    LeadingCount(s[..StripEnd(s, strip)], strip)
  }

  /** `s.strip(chars)`: the slice between the accepted prefix and the
      accepted suffix, which starts and ends with a character `strip` does
      not accept. */
  function Strip(s: string, strip: char -> bool): (r: string)
    ensures |r| <= |s|
    ensures r != [] ==> !strip(r[0]) && !strip(r[|r| - 1])
  {
    StripEdges(s, strip);
    s[StripStart(s, strip)..StripEnd(s, strip)]
  }

  /** Stripping both ends at once is stripping the right end and then the
      left one. */
  lemma StripIsBothEnds(s: string, strip: char -> bool)
    ensures LStrip(RStrip(s, strip), strip) == Strip(s, strip)
  {
  }

  /** What `s.lstrip(chars).rstrip(chars)` (in either order) leaves: the
      slice `s[a..b]`, everything outside it accepted by `strip`, and the
      slice neither starting nor ending with an accepted character. */
  lemma StripBounds(s: string, strip: char -> bool) returns (a: nat, b: nat)
    ensures a <= b <= |s|
    ensures Strip(s, strip) == s[a..b]
    ensures forall i :: 0 <= i < a ==> strip(s[i])
    ensures forall i :: b <= i < |s| ==> strip(s[i])
    ensures a < b ==> !strip(s[a]) && !strip(s[b - 1])
  {
    a, b := StripStart(s, strip), StripEnd(s, strip);
    StripEdges(s, strip);
  }

  lemma StripEdges(s: string, strip: char -> bool)
    ensures forall i :: 0 <= i < StripStart(s, strip) ==> strip(s[i])
    ensures forall i :: StripEnd(s, strip) <= i < |s| ==> strip(s[i])
    ensures StripStart(s, strip) < StripEnd(s, strip) ==>
      !strip(s[StripStart(s, strip)]) && !strip(s[StripEnd(s, strip) - 1])
  {
    var b := StripEnd(s, strip);
    var r := s[..b];
    var a := LeadingCount(r, strip);
    assert forall i :: 0 <= i < a ==> r[i] == s[i];
    if a < b {
      assert r[a] == s[a];
      assert r[b - 1] == s[b - 1];
    }
  }

  /** Stripping by `inner` and then by a wider `outer` leaves what stripping
      by `outer` alone describes: a slice with only `outer` characters around
      it and none at its ends. */
  lemma StripTwiceBounds(s: string, inner: char -> bool, outer: char -> bool) returns (a: nat, b: nat)
    requires forall c :: inner(c) ==> outer(c)
    ensures a <= b <= |s|
    ensures Strip(Strip(s, inner), outer) == s[a..b]
    ensures forall i :: 0 <= i < a ==> outer(s[i])
    ensures forall i :: b <= i < |s| ==> outer(s[i])
    ensures a < b ==> !outer(s[a]) && !outer(s[b - 1])
  {
    var t := Strip(s, inner);
    var a1, b1 := StripBounds(s, inner);
    var a2, b2 := StripBounds(t, outer);
    a, b := a1 + a2, a1 + b2;
    SliceOfSlice(s, t, Strip(t, outer), a1, b1, a2, b2);
    TwiceEdges(s, inner, outer, a1, b1, a2, b2, a, b);
  }

  lemma TwiceEdges(s: string, inner: char -> bool, outer: char -> bool, a1: nat, b1: nat, a2: nat, b2: nat, a: nat, b: nat)
    requires a == a1 + a2 && b == a1 + b2
    requires forall c :: inner(c) ==> outer(c)
    requires a1 <= b1 <= |s| && a2 <= b2 <= b1 - a1
    requires forall i :: 0 <= i < a1 ==> inner(s[i])
    requires forall i :: b1 <= i < |s| ==> inner(s[i])
    requires forall i :: 0 <= i < a2 ==> outer(s[a1..b1][i])
    requires forall i :: b2 <= i < b1 - a1 ==> outer(s[a1..b1][i])
    requires a2 < b2 ==> !outer(s[a1..b1][a2]) && !outer(s[a1..b1][b2 - 1])
    ensures forall i :: 0 <= i < a ==> outer(s[i])
    ensures forall i :: b <= i < |s| ==> outer(s[i])
    ensures a < b ==> !outer(s[a]) && !outer(s[b - 1])
  {
    OuterAround(s, a1, b1, a2, b2, inner, outer);
    InnerEnds(s, a1, b1, a2, b2, outer);
  }

  lemma InnerEnds(s: string, a1: nat, b1: nat, a2: nat, b2: nat, outer: char -> bool)
    requires a1 <= b1 <= |s| && a2 <= b2 <= b1 - a1
    requires a2 < b2 ==> !outer(s[a1..b1][a2]) && !outer(s[a1..b1][b2 - 1])
    ensures a1 + a2 < a1 + b2 ==> !outer(s[a1 + a2]) && !outer(s[a1 + b2 - 1])
  {
    if a2 < b2 {
      SliceAt(s, a1, b1, a2);
      SliceAt(s, a1, b1, b2 - 1);
    }
  }

  lemma SliceAt(s: string, lo: nat, hi: nat, i: nat)
    requires lo <= hi <= |s| && i < hi - lo
    ensures s[lo..hi][i] == s[lo + i]
  {
  }

  lemma OuterAround(s: string, a1: nat, b1: nat, a2: nat, b2: nat, inner: char -> bool, outer: char -> bool)
    requires a1 <= b1 <= |s| && a2 <= b2 <= b1 - a1
    requires forall c :: inner(c) ==> outer(c)
    requires forall i :: 0 <= i < a1 ==> inner(s[i])
    requires forall i :: b1 <= i < |s| ==> inner(s[i])
    requires forall i :: 0 <= i < a2 ==> outer(s[a1..b1][i])
    requires forall i :: b2 <= i < b1 - a1 ==> outer(s[a1..b1][i])
    ensures forall i :: 0 <= i < a1 + a2 ==> outer(s[i])
    ensures forall i :: a1 + b2 <= i < |s| ==> outer(s[i])
  {
    var t := s[a1..b1];
    forall i | 0 <= i < a1 + a2
      ensures outer(s[i])
    {
      if i < a1 {
        assert inner(s[i]);
      } else {
        assert s[i] == t[i - a1];
      }
    }
    forall i | a1 + b2 <= i < |s|
      ensures outer(s[i])
    {
      if i >= b1 {
        assert inner(s[i]);
      } else {
        assert s[i] == t[i - a1];
      }
    }
  }

  lemma SliceOfSlice(s: string, t: string, u: string, a1: nat, b1: nat, a2: nat, b2: nat)
    requires a1 <= b1 <= |s| && a2 <= b2 <= b1 - a1
    requires t == s[a1..b1] && u == t[a2..b2]
    ensures u == s[a1 + a2..a1 + b2]
  {
    assert forall k :: 0 <= k < b2 - a2 ==> u[k] == s[a1 + a2 + k];
  }

  /** Two slices with only `strip` characters around them and none at their
      ends are the same slice, when one of them is non-empty. */
  lemma BoundsUnique(s: string, strip: char -> bool, a: nat, b: nat, m: nat, n: nat)
    requires a <= b <= |s| && m < n <= |s|
    requires forall i :: 0 <= i < a ==> strip(s[i])
    requires forall i :: b <= i < |s| ==> strip(s[i])
    requires a < b ==> !strip(s[a]) && !strip(s[b - 1])
    requires forall i :: 0 <= i < m ==> strip(s[i])
    requires forall i :: n <= i < |s| ==> strip(s[i])
    requires !strip(s[m]) && !strip(s[n - 1])
    ensures a == m && b == n
  {
    assert a <= m && n <= b;
  }

  /** `pre + w + post`, with `pre` and `post` all accepted by `strip` and
      `w` accepted at neither end, has `w` as its stripped slice. */
  lemma PaddedBounds(pre: string, w: string, post: string, strip: char -> bool)
    requires w != [] && !strip(w[0]) && !strip(w[|w| - 1])
    requires forall i :: 0 <= i < |pre| ==> strip(pre[i])
    requires forall i :: 0 <= i < |post| ==> strip(post[i])
    ensures var s := pre + w + post;
      && !strip(s[|pre|]) && !strip(s[|pre| + |w| - 1])
      && (forall i :: 0 <= i < |pre| ==> strip(s[i]))
      && (forall i :: |pre| + |w| <= i < |s| ==> strip(s[i]))
  {
    var s := pre + w + post;
    assert forall i :: 0 <= i < |pre| ==> s[i] == pre[i];
    assert forall i :: |pre| + |w| <= i < |s| ==> s[i] == post[i - |pre| - |w|];
  }

  lemma MiddleOfConcat(pre: string, w: string, post: string)
    ensures (pre + w + post)[|pre|..|pre| + |w|] == w
  {
  }
}

=== FILE: vocab_db.dfy ===
/** `create_json_from_db`: the Kindle vocabulary store mode. The SQLite
    connection is not modelled; its two tables are given as sequences of rows
    in table order. */
module VocabDb {
  import opened Wrappers
  import opened Records
  import Text
  import Enricher

  /** A row of BOOK_INFO. */
  datatype Book = Book(id: string, title: string)

  /** A row of LOOKUPS: the book it belongs to, the namespaced word key
      (`"ja:犬"`) and the usage sentence. */
  datatype Lookup = Lookup(bookKey: string, wordKey: string, usage: string)

  /** The two tables the program reads. */
  datatype Store = Store(books: seq<Book>, lookups: seq<Lookup>)

  /** The NOT EXISTS clause of the per-book query: no row of LOOKUPS (of any
      book) with the same word key has a strictly greater usage; that is, the
      row's usage is a greatest one for its key. */
  predicate Survives(l: Lookup, all: seq<Lookup>): (s: bool)
    ensures s <==> forall m :: m in all && m.wordKey == l.wordKey ==>
      m.usage == l.usage || Text.LexLess(m.usage, l.usage)
  {
    var s := forall m :: m in all && m.wordKey == l.wordKey ==> !Text.LexLess(l.usage, m.usage);
    assert s <==> forall m :: m in all && m.wordKey == l.wordKey ==>
      m.usage == l.usage || Text.LexLess(m.usage, l.usage) by {
      forall m | m in all && m.wordKey == l.wordKey
        ensures !Text.LexLess(l.usage, m.usage) <==> m.usage == l.usage || Text.LexLess(m.usage, l.usage)
      {
        Text.LexLessIrreflexive(l.usage);
        if m.usage != l.usage {
          Text.LexLessTotal(l.usage, m.usage);
          if Text.LexLess(m.usage, l.usage) && Text.LexLess(l.usage, m.usage) {
            Text.LexLessTransitive(l.usage, m.usage, l.usage);
          }
        }
      }
    }
    s
  }

  /** The rows among `rows` the query returns for `book`, in table order. */
  function SelectRows(rows: seq<Lookup>, all: seq<Lookup>, book: string): (r: seq<Lookup>)
    ensures forall l :: l in r <==> l in rows && l.bookKey == book && Survives(l, all)
    ensures |r| <= |rows|
    decreases |rows|
  {
    if |rows| == 0 then []
    else
      (if rows[0].bookKey == book && Survives(rows[0], all) then [rows[0]] else [])
      + SelectRows(rows[1..], all, book)
  }

  /** The result of the query of kindle_to_json.py lines 145-154 for one book.
      SQLite gives no order without ORDER BY; table order is one it may use. */
  function BookQuery(lookups: seq<Lookup>, book: string): (r: seq<Lookup>)
    ensures forall l :: l in r <==> l in lookups && l.bookKey == book && Survives(l, lookups)
    ensures forall l, m :: l in r && m in r && l.wordKey == m.wordKey ==> l.usage == m.usage
  {
    var r := SelectRows(lookups, lookups, book);
    assert forall l, m :: l in r && m in r && l.wordKey == m.wordKey ==> l.usage == m.usage by {
      forall l, m | l in r && m in r && l.wordKey == m.wordKey
        ensures l.usage == m.usage
      {
        SurvivorsShareUsage(l, m, lookups);
      }
    }
    r
  }

  /** Rows with the same word key and the same usage survive together. */
  lemma TiesSurviveTogether(l: Lookup, m: Lookup, all: seq<Lookup>)
    requires l.wordKey == m.wordKey && l.usage == m.usage
    ensures Survives(l, all) <==> Survives(m, all)
  {
  }

  /** All surviving rows for one word key carry the same usage. */
  lemma SurvivorsShareUsage(l: Lookup, m: Lookup, all: seq<Lookup>)
    requires l in all && m in all && l.wordKey == m.wordKey
    requires Survives(l, all) && Survives(m, all)
    ensures l.usage == m.usage
  {
    if l.usage != m.usage {
      Text.LexLessTotal(l.usage, m.usage);
    }
  }

  /** A row for `key` with the greatest usage among `rows`. */
  lemma {:induction false} GreatestUsage(rows: seq<Lookup>, key: string) returns (g: Lookup)
    requires exists x :: x in rows && x.wordKey == key
    ensures g in rows && g.wordKey == key && Survives(g, rows)
    decreases |rows|
  {
    if !exists x :: x in rows[1..] && x.wordKey == key {
      g := rows[0];
      Text.LexLessIrreflexive(g.usage);
    } else {
      var h := GreatestUsage(rows[1..], key);
      if rows[0].wordKey == key && Text.LexLess(h.usage, rows[0].usage) {
        g := rows[0];
        forall x | x in rows && x.wordKey == key
          ensures !Text.LexLess(g.usage, x.usage)
        {
          if x == rows[0] {
            Text.LexLessIrreflexive(g.usage);
          } else {
            assert x in rows[1..];
            if Text.LexLess(g.usage, x.usage) {
              Text.LexLessTransitive(h.usage, g.usage, x.usage);
            }
          }
        }
      } else {
        g := h;
      }
    }
  }

  /** Every word key of LOOKUPS keeps at least one row, in some book. */
  lemma SomeRowSurvives(l: Lookup, all: seq<Lookup>)
    requires l in all
    ensures exists m :: m in all && m.wordKey == l.wordKey && Survives(m, all)
  {
    var g := GreatestUsage(all, l.wordKey);
  }

  /** The subquery spans all books: a greater usage recorded in another book
      removes the word from this one. */
  lemma OtherBookSuppressesExample()
    ensures var here := Lookup("b1", "ja:犬", "a");
      var there := Lookup("b2", "ja:犬", "b");
      BookQuery([here, there], "b1") == []
  {
    var here := Lookup("b1", "ja:犬", "a");
    var there := Lookup("b2", "ja:犬", "b");
    assert Text.LexLess(here.usage, there.usage);
    assert !Survives(here, [here, there]);
  }

  /** The kept row has the lexicographically greatest usage, which need not be
      the shortest. */
  lemma LongerUsageKeptExample()
    ensures var short := Lookup("b1", "ja:犬", "a");
      var long := Lookup("b1", "ja:犬", "zzz");
      BookQuery([short, long], "b1") == [long]
  {
    var short := Lookup("b1", "ja:犬", "a");
    var long := Lookup("b1", "ja:犬", "zzz");
    assert Text.LexLess(short.usage, long.usage);
    assert !Text.LexLess(long.usage, short.usage);
    Text.LexLessIrreflexive(long.usage);
    assert Survives(long, [short, long]);
    assert [short, long][1..] == [long];
  }

  /** `word_key.split(':')[1]`: the text between the first and second `:`.
      `None` where Python raises IndexError (no `:` at all). */
  function KeyWord(key: string): (w: Option<string>)
    ensures w.None? <==> ':' !in key
    ensures w.Some? ==> ':' !in w.value
  {
    var parts := Text.Split(key, ':');
    if |parts| < 2 then None else Some(parts[1])
  }

  /** The namespace prefix, and anything after a second `:`, are dropped. */
  lemma KeyWordOfNamespacedKey(lang: string, word: string, rest: string)
    requires ':' !in lang && ':' !in word
    requires rest == "" || rest[0] == ':'
    ensures KeyWord(lang + ":" + word + rest) == Some(word)
  {
    var key := lang + ":" + word + rest;
    assert key == lang + [':'] + (word + rest);
    Text.SplitAround(lang, word + rest, ':');
    Text.NoSeparatorSplit(lang, ':');
    if rest == "" {
      assert word + rest == word;
      Text.NoSeparatorSplit(word, ':');
    } else {
      assert word + rest == word + [':'] + rest[1..];
      Text.SplitAround(word, rest[1..], ':');
      Text.NoSeparatorSplit(word, ':');
    }
  }

  lemma KeyWordExample()
    ensures KeyWord("ja:犬") == Some("犬")
    ensures KeyWord("ja:猫") == Some("猫")
  {
    KeyWordOfNamespacedKey("ja", "犬", "");
    assert "ja" + ":" + "犬" + "" == "ja:犬";
    KeyWordOfNamespacedKey("ja", "猫", "");
    assert "ja" + ":" + "猫" + "" == "ja:猫";
  }

  /** The record for one returned row whose key has a `:`. */
  function EnrichRow(l: Lookup, search: string -> Enricher.SearchReply,
                     sentences: string -> Enricher.SentenceReply): (r: Option<WordRecord>)
    requires ':' in l.wordKey
    ensures r.None? <==> Enricher.IsSkippedWord(KeyWord(l.wordKey).value)
    ensures r.Some? ==> r.value.word == KeyWord(l.wordKey).value && ':' !in r.value.word
    ensures r.Some? && l.usage != "" ==> r.value.sample == Some(l.usage)
  {
    var w := KeyWord(l.wordKey).value;
    Enricher.Enrich(w, Some(l.usage), search(w), sentences(w))
  }

  /** The loop over one book's query result: each row's word is enriched with
      its usage as sample, and kept when a record comes back. A key without
      `:` raises and ends the run; the key is reported. */
  function BookWords(rows: seq<Lookup>, search: string -> Enricher.SearchReply,
                     sentences: string -> Enricher.SentenceReply): (r: Result<seq<WordRecord>, string>)
    ensures r.Failure? <==> exists l :: l in rows && ':' !in l.wordKey
    ensures r.Success? ==> |r.value| <= |rows|
    ensures r.Success? ==> forall rec :: rec in r.value ==>
      exists l :: l in rows && ':' in l.wordKey && EnrichRow(l, search, sentences) == Some(rec)
    ensures r.Success? ==>
      forall l :: (l in rows && ':' in l.wordKey && !Enricher.IsSkippedWord(KeyWord(l.wordKey).value)) ==>
        EnrichRow(l, search, sentences).Some? && EnrichRow(l, search, sentences).value in r.value
    decreases |rows|
  {
    if |rows| == 0 then Success([])
    else
      match KeyWord(rows[0].wordKey)
      case None => Failure(rows[0].wordKey)
      case Some(w) =>
        var rec := Enricher.Enrich(w, Some(rows[0].usage), search(w), sentences(w));
        match BookWords(rows[1..], search, sentences)
        case Failure(e) =>
          assert exists l :: l in rows && ':' !in l.wordKey by {
            var l :| l in rows[1..] && ':' !in l.wordKey;
            assert l in rows;
          }
          Failure(e)
        case Success(rest) =>
          var words := (if rec.Some? then [rec.value] else []) + rest;
          assert forall l :: l in rows ==> l == rows[0] || l in rows[1..];
          Success(words)
  }

  /** One group per BOOK_INFO row, in query order. */
  function BookGroups(books: seq<Book>, lookups: seq<Lookup>, search: string -> Enricher.SearchReply,
                      sentences: string -> Enricher.SentenceReply): (r: Result<seq<BookGroup>, string>)
    ensures r.Failure? <==> exists i :: 0 <= i < |books| && BookWords(BookQuery(lookups, books[i].id), search, sentences).Failure?
    ensures r.Success? ==> |r.value| == |books|
    ensures r.Success? ==> forall i :: 0 <= i < |books| ==>
      && r.value[i].title == books[i].title
      && BookWords(BookQuery(lookups, books[i].id), search, sentences) == Success(r.value[i].words)
    decreases |books|
  {
    if |books| == 0 then Success([])
    else
      match BookWords(BookQuery(lookups, books[0].id), search, sentences)
      case Failure(e) => Failure(e)
      case Success(words) =>
        match BookGroups(books[1..], lookups, search, sentences)
        case Failure(e) =>
          assert exists i :: 0 <= i < |books| && BookWords(BookQuery(lookups, books[i].id), search, sentences).Failure? by {
            var i :| 0 <= i < |books[1..]| && BookWords(BookQuery(lookups, books[1..][i].id), search, sentences).Failure?;
            assert books[1..][i] == books[i + 1];
          }
          Failure(e)
        case Success(groups) =>
          var all := [BookGroup(books[0].title, words)] + groups;
          assert forall i :: 1 <= i < |books| ==> books[i] == books[1..][i - 1] && all[i] == groups[i - 1];
          Success(all)
  }

  /** create_json_from_db: the document, or the malformed key that made the
      run fail. */
  function BuildDocument(store: Store, search: string -> Enricher.SearchReply,
                         sentences: string -> Enricher.SentenceReply): (r: Result<Document, string>)
    ensures r.Success? ==> |r.value.books| == |store.books|
    ensures r.Success? ==> forall i :: 0 <= i < |store.books| ==> r.value.books[i].title == store.books[i].title
  {
    match BookGroups(store.books, store.lookups, search, sentences)
    case Failure(e) => Failure(e)
    case Success(groups) => Success(Document(groups))
  }

  /** The run fails exactly when some listed book's query returns a row whose
      key has no `:`. */
  lemma BuildDocumentFailsOnMalformedKey(store: Store, search: string -> Enricher.SearchReply,
                                         sentences: string -> Enricher.SentenceReply)
    ensures BuildDocument(store, search, sentences).Failure? <==>
      exists b, l :: b in store.books && l in store.lookups && l.bookKey == b.id
        && Survives(l, store.lookups) && ':' !in l.wordKey
  {
    var r := BookGroups(store.books, store.lookups, search, sentences);
    if r.Failure? {
      var i :| 0 <= i < |store.books| && BookWords(BookQuery(store.lookups, store.books[i].id), search, sentences).Failure?;
      var l :| l in BookQuery(store.lookups, store.books[i].id) && ':' !in l.wordKey;
      assert store.books[i] in store.books;
    } else {
      forall b, l | b in store.books && l in store.lookups && l.bookKey == b.id && Survives(l, store.lookups)
        ensures ':' in l.wordKey
      {
        var i :| 0 <= i < |store.books| && store.books[i] == b;
        assert l in BookQuery(store.lookups, b.id);
      }
    }
  }

  /** A book whose query returns nothing (no lookups, or all of them
      outranked) still gets its group, with no words. */
  lemma EmptyBookKeepsItsGroup(store: Store, i: nat, search: string -> Enricher.SearchReply,
                               sentences: string -> Enricher.SentenceReply)
    requires i < |store.books|
    requires BookQuery(store.lookups, store.books[i].id) == []
    requires BuildDocument(store, search, sentences).Success?
    ensures var doc := BuildDocument(store, search, sentences).value;
      doc.books[i] == BookGroup(store.books[i].title, [])
  {
  }
}

=== FILE: word_list.dfy ===
/** `create_json_from_csv`: the plain word-list mode. `csv.reader` is not
    modelled; its rows are given already split into cells. */
module WordList {
  import opened Wrappers
  import opened Records
  import Text
  import Enricher

  /** The title of the single group the word-list mode writes. */
  const DefaultTitle := "DEFAULT_TITLE_REPLACE_ME"

  predicate IsNewline(c: char) { c == '\n' }

  /** `word.rstrip('\n').lstrip('\n').strip()`. */
  function Normalize(token: string): (w: string)
    ensures |w| <= |token|
    ensures w == "" || IsCleanWord(w)
  {
    Text.Strip(Text.LStrip(Text.RStrip(token, IsNewline), IsNewline), Text.IsSpace)
  }

  /** The newline passes are subsumed: a cell is cut down to the slice
      `token[a..b]` without surrounding white space. */
  lemma NormalizeBounds(token: string) returns (a: nat, b: nat)
    ensures a <= b <= |token|
    ensures Normalize(token) == token[a..b]
    ensures forall i :: 0 <= i < a ==> Text.IsSpace(token[i])
    ensures forall i :: b <= i < |token| ==> Text.IsSpace(token[i])
    ensures a < b ==> !Text.IsSpace(token[a]) && !Text.IsSpace(token[b - 1])
  {
    assert forall c :: IsNewline(c) ==> Text.IsSpace(c);
    Text.StripIsBothEnds(token, IsNewline);
    a, b := Text.StripTwiceBounds(token, IsNewline, Text.IsSpace);
  }

  /** A word create_json_from_word will see from this mode: non-empty, with
      no white space at either end. */
  predicate IsCleanWord(w: string) {
    w != "" && !Text.IsSpace(w[0]) && !Text.IsSpace(w[|w| - 1])
  }

  /** No clean word is one create_json_from_word refuses. */
  lemma CleanWordNotSkipped(w: string)
    requires IsCleanWord(w)
    ensures !Enricher.IsSkippedWord(w)
  {
    assert Text.IsSpace('\n') && Text.IsSpace('\r') && Text.IsSpace('\t');
  }

  /** The cells of all rows, row after row, each row left to right: every
      cell of every row is there, and nothing else. */
  function Flatten(rows: seq<seq<string>>): (cells: seq<string>)
    ensures forall r, c :: 0 <= r < |rows| && 0 <= c < |rows[r]| ==> rows[r][c] in cells
    ensures forall t :: t in cells ==> exists r :: 0 <= r < |rows| && t in rows[r]
    decreases |rows|
  {
    if |rows| == 0 then []
    else
      var front := rows[..|rows| - 1];
      assert forall r :: 0 <= r < |rows| - 1 ==> front[r] == rows[r];
      Flatten(front) + rows[|rows| - 1]
  }

  /** The words the program enriches from `cells`, in order: each cell
      normalised, empty results dropped. */
  function Words(cells: seq<string>): (ws: seq<string>)
    ensures |ws| <= |cells|
    ensures forall i :: 0 <= i < |ws| ==> IsCleanWord(ws[i])
    decreases |cells|
  {
    if |cells| == 0 then []
    else
      var last := cells[|cells| - 1];
      var w := Normalize(last);
      Words(cells[..|cells| - 1]) + (if w == "" then [] else [w])
  }

  /** One more cell adds its normalised text, unless that is empty. */
  lemma WordsAppend(cells: seq<string>, t: string)
    ensures Words(cells + [t]) == Words(cells) + (if Normalize(t) == "" then [] else [Normalize(t)])
  {
    assert (cells + [t])[..|cells|] == cells;
  }

  lemma DropLast(cells: seq<string>)
    requires |cells| > 0
    ensures cells == cells[..|cells| - 1] + [cells[|cells| - 1]]
  {
  }

  /** Every word comes from a cell. */
  lemma {:induction false} WordsFromCells(cells: seq<string>)
    ensures forall w :: w in Words(cells) ==> exists t :: t in cells && Normalize(t) == w
    decreases |cells|
  {
    if |cells| > 0 {
      var front := cells[..|cells| - 1];
      var last := cells[|cells| - 1];
      WordsFromCells(front);
      WordsAppend(front, last);
      DropLast(cells);
      forall w | w in Words(cells)
        ensures exists t :: t in cells && Normalize(t) == w
      {
        if w in Words(front) {
          var t :| t in front && Normalize(t) == w;
          assert t in cells;
        } else {
          assert Normalize(last) == w;
        }
      }
    }
  }

  /** Every cell with non-blank text yields its word. */
  lemma {:induction false} CellsGiveWords(cells: seq<string>)
    ensures forall t :: t in cells && Normalize(t) != "" ==> Normalize(t) in Words(cells)
    decreases |cells|
  {
    if |cells| > 0 {
      var front := cells[..|cells| - 1];
      var last := cells[|cells| - 1];
      CellsGiveWords(front);
      WordsAppend(front, last);
      DropLast(cells);
      forall t | t in cells && Normalize(t) != ""
        ensures Normalize(t) in Words(cells)
      {
        if t != last {
          assert t in front;
        }
      }
    }
  }

  /** The records create_json_from_word returns for `ws`, in order, the
      refused words (none, for words from Words) left out. */
  function EnrichedWords(ws: seq<string>, search: string -> Enricher.SearchReply,
                         sentences: string -> Enricher.SentenceReply): (recs: seq<WordRecord>)
    ensures |recs| <= |ws|
    decreases |ws|
  {
    if |ws| == 0 then []
    else
      var w := ws[|ws| - 1];
      EnrichedWords(ws[..|ws| - 1], search, sentences)
      + match Enricher.Enrich(w, None, search(w), sentences(w))
        case Some(rec) => [rec]
        case None => []
  }

  /** Every record belongs to one of the words and is never for a word
      create_json_from_word refuses. */
  lemma {:induction false} EnrichedWordsFromWords(ws: seq<string>, search: string -> Enricher.SearchReply,
                                                  sentences: string -> Enricher.SentenceReply)
    ensures forall rec :: rec in EnrichedWords(ws, search, sentences) ==>
      rec.word in ws && !Enricher.IsSkippedWord(rec.word)
    decreases |ws|
  {
    if |ws| > 0 {
      var front := ws[..|ws| - 1];
      var w := ws[|ws| - 1];
      EnrichedWordsFromWords(front, search, sentences);
      assert forall x :: x in front ==> x in ws;
    }
  }

  /** For clean words nothing is left out: record `k` is the record of word `k`. */
  lemma {:induction false} EnrichedCleanWords(ws: seq<string>, search: string -> Enricher.SearchReply,
                                              sentences: string -> Enricher.SentenceReply)
    requires forall i :: 0 <= i < |ws| ==> IsCleanWord(ws[i])
    ensures |EnrichedWords(ws, search, sentences)| == |ws|
    ensures forall k :: 0 <= k < |ws| ==>
      Enricher.Enrich(ws[k], None, search(ws[k]), sentences(ws[k])) == Some(EnrichedWords(ws, search, sentences)[k])
    decreases |ws|
  {
    if |ws| > 0 {
      var front := ws[..|ws| - 1];
      var w := ws[|ws| - 1];
      EnrichedCleanWords(front, search, sentences);
      CleanWordNotSkipped(w);
      assert forall k :: 0 <= k < |front| ==> front[k] == ws[k];
    }
  }

  /** Handling one more cell adds that cell's record, if any. */
  lemma EnrichedWordsAppend(cells: seq<string>, t: string,
                            search: string -> Enricher.SearchReply, sentences: string -> Enricher.SentenceReply)
    ensures var w := Normalize(t);
      var rec := Enricher.Enrich(w, None, search(w), sentences(w));
      EnrichedWords(Words(cells + [t]), search, sentences)
        == EnrichedWords(Words(cells), search, sentences) + (if rec.Some? then [rec.value] else [])
  {
    WordsAppend(cells, t);
    AppendWord(Words(cells), Words(cells + [t]), Normalize(t), search, sentences);
  }

  /** A word list grown by `w`, or not grown when `w` is blank, has the
      records of the shorter list plus the record of `w`, if any. */
  lemma AppendWord(ws: seq<string>, ws': seq<string>, w: string,
                   search: string -> Enricher.SearchReply, sentences: string -> Enricher.SentenceReply)
    requires ws' == ws + (if w == "" then [] else [w])
    ensures var rec := Enricher.Enrich(w, None, search(w), sentences(w));
      EnrichedWords(ws', search, sentences)
        == EnrichedWords(ws, search, sentences) + (if rec.Some? then [rec.value] else [])
  {
    if w == "" {
      assert ws' == ws;
      assert Enricher.Enrich(w, None, search(w), sentences(w)).None?;
      assert EnrichedWords(ws, search, sentences) + [] == EnrichedWords(ws, search, sentences);
    } else {
      EnrichedSnoc(ws, w, search, sentences);
    }
  }

  lemma EnrichedSnoc(ws: seq<string>, w: string,
                     search: string -> Enricher.SearchReply, sentences: string -> Enricher.SentenceReply)
    ensures var rec := Enricher.Enrich(w, None, search(w), sentences(w));
      EnrichedWords(ws + [w], search, sentences)
        == EnrichedWords(ws, search, sentences) + (if rec.Some? then [rec.value] else [])
  {
    assert (ws + [w])[..|ws|] == ws;
  }

  /** `a + row[..j + 1]` extends `a + row[..j]` by `row[j]`. */
  lemma ExtendPrefix(a: seq<string>, row: seq<string>, j: nat)
    requires j < |row|
    ensures a + row[..j + 1] == (a + row[..j]) + [row[j]]
  {
    assert row[..j + 1] == row[..j] + [row[j]];
  }

  /** The inner loop of create_json_from_csv: the records for one more row
      are appended, in column order. */
  method AppendRow(wordInfo: seq<WordRecord>, ghost cells: seq<string>, row: seq<string>,
                   search: string -> Enricher.SearchReply, sentences: string -> Enricher.SentenceReply)
    returns (wordInfo': seq<WordRecord>)
    requires wordInfo == EnrichedWords(Words(cells), search, sentences)
    ensures wordInfo' == EnrichedWords(Words(cells + row), search, sentences)
  {
    wordInfo' := wordInfo;
    var j := 0;
    assert cells + row[..0] == cells;
    while j < |row|
      invariant 0 <= j <= |row|
      invariant wordInfo' == EnrichedWords(Words(cells + row[..j]), search, sentences)
    {
      var word := Normalize(row[j]);
      var rec := Enricher.Enrich(word, None, search(word), sentences(word));
      EnrichedWordsAppend(cells + row[..j], row[j], search, sentences);
      ExtendPrefix(cells, row, j);
      if rec.Some? {
        wordInfo' := wordInfo' + [rec.value];
      }
      j := j + 1;
    }
    assert row[..j] == row;
  }

  /** The outer loop of create_json_from_csv: the records of all rows, row
      after row. */
  method CollectRows(rows: seq<seq<string>>, search: string -> Enricher.SearchReply,
                     sentences: string -> Enricher.SentenceReply) returns (wordInfo: seq<WordRecord>)
    ensures wordInfo == EnrichedWords(Words(Flatten(rows)), search, sentences)
  {
    wordInfo := [];
    var i := 0;
    while i < |rows|
      invariant 0 <= i <= |rows|
      invariant wordInfo == EnrichedWords(Words(Flatten(rows[..i])), search, sentences)
    {
      wordInfo := AppendRow(wordInfo, Flatten(rows[..i]), rows[i], search, sentences);
      FlattenSnoc(rows, i);
      i := i + 1;
    }
    assert rows[..i] == rows;
  }

  /** One more row appends its cells. */
  lemma FlattenSnoc(rows: seq<seq<string>>, i: nat)
    requires i < |rows|
    ensures Flatten(rows[..i + 1]) == Flatten(rows[..i]) + rows[i]
  {
    assert rows[..i + 1][..i] == rows[..i];
  }

  /** create_json_from_csv: one group titled DefaultTitle holding a record for
      every non-blank cell, in row-then-column order. */
  method BuildDocument(rows: seq<seq<string>>, search: string -> Enricher.SearchReply,
                       sentences: string -> Enricher.SentenceReply) returns (doc: Document)
    ensures |doc.books| == 1 && doc.books[0].title == DefaultTitle
    ensures doc.books[0].words == EnrichedWords(Words(Flatten(rows)), search, sentences)
    ensures |doc.books[0].words| == |Words(Flatten(rows))|
    ensures forall k :: 0 <= k < |doc.books[0].words| ==>
      var w := Words(Flatten(rows))[k];
      Enricher.Enrich(w, None, search(w), sentences(w)) == Some(doc.books[0].words[k])
  {
    var wordInfo := CollectRows(rows, search, sentences);
    EnrichedCleanWords(Words(Flatten(rows)), search, sentences);
    doc := Document([BookGroup(DefaultTitle, wordInfo)]);
  }

  /** White space around a clean word is all that normalisation removes. */
  lemma NormalizePadded(pre: string, w: string, post: string)
    requires IsCleanWord(w)
    requires forall i :: 0 <= i < |pre| ==> Text.IsSpace(pre[i])
    requires forall i :: 0 <= i < |post| ==> Text.IsSpace(post[i])
    ensures Normalize(pre + w + post) == w
  {
    var s := pre + w + post;
    var a, b := NormalizeBounds(s);
    var m, n := |pre|, |pre| + |w|;
    Text.PaddedBounds(pre, w, post, Text.IsSpace);
    Text.BoundsUnique(s, Text.IsSpace, a, b, m, n);
    Text.MiddleOfConcat(pre, w, post);
  }
}

=== FILE: wrappers.dfy ===
/** The Option and Result datatypes used across the model: `Option` stands for a
    Python value that may be `None` (or a JSON key that may be missing), and
    `Result` for a computation that may raise and abort the run. */
module Wrappers {

  datatype Option<+T> = None | Some(value: T) {

    /** The value in Some, or `default` when None (Python's `d.get(key, default)`). */
    function GetOr(default: T): T {
      match this
      case Some(v) => v
      case None => default
    }
  }

  datatype Result<+R, +E> = Success(value: R) | Failure(error: E)
}
